=== FILE: README.md ===
# Tag edits, login sessions and tag categories: a Dafny model

This project models three pieces of decision logic from the szurubooru image
board and proves properties of them. Each is written as pure functions that
return the next state together with a result or an error.

- **Post tag-edit job** (`PostTags`, from `EditPostTagsJob`). The job is
  satisfied when the TAG_NAMES argument is present. A non-array argument
  fails with "Expected array" before anything changes. On success the post's
  tags are replaced by the tags spawned from the requested names. Only a
  NORMAL run saves the post and sweeps unused tags. Every run logs one
  "untagged" entry per old name missing from the new list (PHP `array_diff`)
  and one "tagged" entry per new name missing from the old list. The
  privilege it asks for is AddPostTags in a BATCH_ADD run and EditPostTags
  otherwise, scoped to the post's uploader.
- **Identity and session** (`Auth`). `Login` runs its refusals in a fixed
  order: unknown user, wrong password, staff activation pending, banned,
  e-mail requirement. The first one that refuses decides the error and
  leaves the state unchanged. When all pass, the remember-me cookie
  `encrypt(base64(name) "|" base64(password))` is issued if asked for, with
  an expiry 365 days out, and the user becomes current. `TryAutoLogin`
  decrypts and splits that cookie and logs in again, swallowing any error.
  The session is a map whose logged-in flag is set exactly when the current
  user's rank is not Anonymous. `null` stands for a fresh anonymous user.
- **Tag-category store** (`TagCategories`, from `tag_categories.py`).
  Covered: name validation (empty, taken ignoring case by another row, too
  long, configured regex), colour validation (empty, `^#?[0-9a-z]+$`, too
  long), and the first created category becoming the default. Lookup by
  name ignores case. The default lookup falls back to the smallest id.
  `set_default_category` moves the flag. Deletion refuses the last category
  and categories in use. The cached default name is modelled as well.
  The store invariant is proved to be kept by rename, create-then-add,
  set-default and delete. It says: ids are positive and unique, names are
  unique ignoring case, and at most one category is the default.

Collaborators whose code is outside this model are parameters that the
model never looks inside:

- the user lookup, the password hash, PHP's loose string comparison, the cookie cipher, base64 and the
  e-mail requirement (fields of `Auth.Env`);
- `TagModel::spawnFromNames` (the `spawn` argument of `PostTags.Execute`);
- the configured category-name regex (`TagCategories.Config`).

The cookie round trip needs the facts in `Auth.CodecLaws`:

- decryption inverts encryption;
- base64 decoding inverts encoding;
- base64 output contains no `|`.

Some PHP behaviour is modelled exactly as written:

- The audit entry for an added tag uses the template
  "{user} tagged {post} with {tag}", and the one for a removed tag
  "{user} untagged {post} with {tag}". Both name the session's current user.
- An unknown user fails with "Invalid username" and a wrong password with
  "Invalid password".
- The password hashes are compared with PHP's loose `!=`. Two
  numeric-looking strings are then compared as numbers, so "0e1" and "0e2"
  count as equal. `Auth.Env.looseEquals` stands for that comparison, and
  `Auth.LooselyEqualHashLogsIn` states that a password whose hash is loosely
  equal to the stored one logs in even when the strings differ.
- `TagModel::spawnFromNames` may throw; its message is passed on and the
  post is left as it was.
- The e-mail requirement is whatever `Access::requireEmail` enforces. The
  model takes it as a predicate.

Some Python behaviour is modelled exactly as written:

- The colour regex is applied with `re.match` and ends in `$`. Python's `$`
  also matches before one final newline, so `TagCategories.ColorMatches`
  accepts a colour with one trailing `"\n"`.
- Renaming checks for a clash before it checks the length, so a long name
  that clashes is reported as a clash.

## Model

| member | source | states |
|---|---|---|
| PostTags.SatisfiedIffTagNamesPresent | src/Api/Jobs/EditPostTagsJob.php:4-7 | the job is satisfied when TAG_NAMES is present, whatever its value, and not when it is absent |
| PostTags.ArrayDiff | src/Api/Jobs/EditPostTagsJob.php:29 | `array_diff(a, b)` holds exactly the elements of `a` that are not in `b`, each as many times as it occurs in `a`, and none of `b` |
| PostTags.Execute | src/Api/Jobs/EditPostTagsJob.php:9-46 | fails exactly when TAG_NAMES is not an array ("Expected array") or spawning the tags fails (its message), and then post, effects and log are unchanged; on success the same post (same id and uploader) is returned carrying the spawned tags; save and unused-tag removal are added exactly in the NORMAL context; the log is only ever appended to |
| PostTags.LogIsTagDiff | src/Api/Jobs/EditPostTagsJob.php:29-43 | the appended entries are first one "untagged" entry per element of `array_diff(old, new)`, in that order, then one "tagged" entry per element of `array_diff(new, old)`, in that order; so they name each tag `n` as "untagged" once per occurrence in the old names when `n` is not among the new names, and never when it is; "tagged" likewise for new names missing from the old ones; every entry names the session's current user and the post |
| PostTags.EditExample | src/Api/Jobs/EditPostTagsJob.php:29-43 | editing tags {a, b} to {b, c} appends exactly "untagged a" and then "tagged c", by the session's current user and with the templates "{user} untagged {post} with {tag}" and "{user} tagged {post} with {tag}" |
| PostTags.RequiredPrivilege | src/Api/Jobs/EditPostTagsJob.php:48-55 | the privilege is AddPostTags exactly in the BATCH_ADD context and EditPostTags in every other, always scoped to the post's uploader |
| PostTags.PrivilegeStableAcrossExecute | src/Api/Jobs/EditPostTagsJob.php:48-55 | running the job leaves the privilege it requires unchanged in every context, because the uploader is kept |
| Auth.IsLoggedIn | src/Auth.php:60-63 | not logged in when the logged-in entry is missing or false, logged in when it is true; any other value counts by PHP truthiness |
| Auth.IsLoggedInReadsOnlyFlag | src/Auth.php:60-63 | two sessions with the same logged-in entry agree on whether someone is logged in, whatever else they hold |
| Auth.AnonymousUser | src/Auth.php:85-91 | the anonymous user has the configured anonymous name and rank Anonymous |
| Auth.SetCurrentUser | src/Auth.php:65-76 | after setting, the session is logged in exactly when a user was given and its rank is not Anonymous; the session holds the user, or the anonymous user for `null`; the session invariant holds; other session keys are kept |
| Auth.GetCurrentUser | src/Auth.php:78-83 | when logged in, the result is the user stored in the session; otherwise it is a fresh anonymous user |
| Auth.SetNullIsSetAnonymous | src/Auth.php:67-70 | setting `null` gives the same session as setting the anonymous user |
| Auth.CurrentUserAfterSet | src/Auth.php:65-83 | reading the current user after setting `u` gives `u` when its rank is not Anonymous, and the anonymous user otherwise |
| Auth.LogOut | src/Auth.php:4-9 | after logging out the session is not logged in, the current user is the anonymous user, and the auth cookie is gone |
| Auth.Explode | src/Auth.php:48 | PHP `explode` on the separator gives at least one piece; no piece contains the separator; joining the pieces with the separator gives `s` back |
| Auth.ParseToken | src/Auth.php:47-48 | a token without a separator gives the decoded token as name and an empty password; otherwise the name is the decoded text before the first separator and the password the decoded piece after it, up to any next separator |
| Auth.ExplodeImplode | src/Auth.php:35-48 | splitting a separator-joined list of separator-free pieces gives the same pieces back |
| Auth.RememberTokenRoundTrip | src/Auth.php:33-48 | decrypting and parsing the remember-me cookie gives back the name and password it was made from, assuming `CodecLaws` |
| Auth.Login | src/Auth.php:11-40 | the result is the error of the first check, in the source's order, that refuses (the password check being PHP's loose comparison of the hashes) the looked-up user, and a pass when none does; an unknown name is "Invalid username" and a password whose hash is not loosely equal to the stored one is "Invalid password", with those messages; any failure leaves session and cookie unchanged; on success the looked-up user is set as current and the cookie holds the encrypted token with expiry now + 365 days exactly when `remember` is set |
| Auth.LoginSetsCurrentUser | src/Auth.php:39 | after a successful login, the current user is the looked-up user (or the anonymous user if that record's rank is Anonymous), and the session is logged in exactly when the rank is not Anonymous |
| Auth.AppendedCharacterIsRejected | src/Auth.php:20-22 | when PHP's loose comparison is an equivalence and the hashes of the password and of the password with one character appended do not compare loosely equal, the correct password logs in, and the same password with a character appended fails with "Invalid password" and changes nothing |
| Auth.LooselyEqualHashLogsIn | src/Auth.php:20-22 | a password whose hash differs from the stored hash as a string but compares loosely equal to it passes the password check, and the user becomes current |
| Auth.TryAutoLogin | src/Auth.php:42-58 | with no cookie, nothing happens and nothing is reported; otherwise the result is true exactly when the login with the parsed name and password succeeds; on false the state is unchanged; the cookie is never renewed |
| Auth.RememberedLoginAutoLogsIn | src/Auth.php:33-58 | after a successful remembered login, auto-login from the issued cookie succeeds and leaves the same session, provided the user table is unchanged; the auto-login itself does not look at the time, because an expired cookie is simply not sent by the browser |
| TagCategories.ColorExamples | server/szurubooru/func/tag_categories.py:82 | the colour regex admits `#ff00aa`, `red` and `#0` followed by one newline, and rejects `#`, `#FFF`, the empty colour and `#a b` |
| TagCategories.UpdateName | server/szurubooru/func/tag_categories.py:59-75 | the name is accepted exactly when it passes all four checks; errors in the source's order: empty; taken ignoring case by a row with a different id (or by any row, for an unsaved category); longer than the column; rejected by the regex. A failure changes nothing. On success only the name changes, on the object and on its row, and the cached default name is dropped |
| TagCategories.UpdateColor | server/szurubooru/func/tag_categories.py:78-86 | the colour is accepted exactly when it is non-empty, matches `#?[0-9a-z]+`, and fits the column; empty, regex and too-long failures are each reported as such; a failure changes nothing; on success only the colour changes, on the object and on its row |
| TagCategories.CreateCategory | server/szurubooru/func/tag_categories.py:50-56 | creation succeeds exactly when both name and colour are acceptable; a bad name fails with the error renaming would report and changes nothing; a good name with a bad colour fails with the error recolouring would report, with the cached default name already dropped; the new unsaved category has that name and colour and is the default exactly when no category existed before; no row is touched |
| TagCategories.TryGetByName | server/szurubooru/func/tag_categories.py:89-95 | the lookup ignores case; it finds nothing exactly when no row has the name ignoring case; a row it finds has that name; it raises MultipleFound exactly when two or more rows match, and returns the only match when exactly one does |
| TagCategories.GetByName | server/szurubooru/func/tag_categories.py:98-102 | raises NotFound exactly when the `try_` lookup finds nothing, passes on its ambiguity error, and otherwise returns the row it found |
| TagCategories.UniqueNamesMatchAtMostOne | server/szurubooru/func/tag_categories.py:89-95 | when names are unique ignoring case, at most one row matches and the one-or-none lookup never raises |
| TagCategories.TryGetDefault | server/szurubooru/func/tag_categories.py:113-129 | finds nothing exactly when the store is empty; finds a default-flagged row when one exists, and otherwise the row with the smallest id |
| TagCategories.GetDefault | server/szurubooru/func/tag_categories.py:132-136 | raises NotFound exactly when the store is empty, and otherwise returns what the `try_` lookup returns |
| TagCategories.GetDefaultName | server/szurubooru/func/tag_categories.py:139-145 | a cached name is returned as it is, whatever the rows hold; on a miss the default category's name is returned and stored in the cache, and a miss on an empty store is NotFound with nothing cached; when the cache is coherent, the answer is the name of the default category (NotFound on an empty store), and the cache stays coherent; the rows are untouched |
| TagCategories.SetDefault | server/szurubooru/func/tag_categories.py:148-156 | only default flags change; `c` becomes default; the cached name is dropped; if the store had persisted ids and at most one default, `c` is now the only default |
| TagCategories.Delete | server/szurubooru/func/tag_categories.py:159-167 | refused with "last category" exactly when one category exists, then "in use" exactly when the category has tags; a refusal changes nothing; otherwise exactly the rows with its id are removed and the cache is kept |
| TagCategories.RenameKeepsStoreValid | server/szurubooru/func/tag_categories.py:59-75 | a rename keeps the store invariant: unique ids, names unique ignoring case, at most one default |
| TagCategories.RecolorKeepsStoreValid | server/szurubooru/func/tag_categories.py:78-86 | a colour update, which does not drop the cached default name, keeps the store invariant and leaves that cache naming the category the default lookup picks |
| TagCategories.DefaultNameIgnoresColor | server/szurubooru/func/tag_categories.py:113-129 | the default lookup depends only on ids, names and default flags: any two stores that agree row by row on those find a default in the same cases, with the same name |
| TagCategories.RenameToOwnNameInOtherCase | server/szurubooru/func/tag_categories.py:63-67 | renaming a stored category to its own name in a different case is never a clash, because its own id is excluded |
| TagCategories.CreatedCategoryKeepsStoreValid | server/szurubooru/func/tag_categories.py:50-56 | a created category, once added with a fresh id, keeps the store invariant, including at most one default |
| TagCategories.SetDefaultKeepsStoreValid | server/szurubooru/func/tag_categories.py:148-156 | moving the default keeps the store invariant, and afterwards exactly one row is default: `c` |
| TagCategories.DeleteKeepsStoreValid | server/szurubooru/func/tag_categories.py:159-167 | a successful delete removes exactly one row (the category), keeps the store invariant, and leaves at least one category |
| TagCategories.DeleteKeepsCacheCoherent | server/szurubooru/func/tag_categories.py:159-167 | deleting a category that is not the flagged default keeps a coherent cached default name coherent |

## Left out

- The dispatcher (`Api::run`) is not part of this model. The same goes for privilege evaluation (`Access`, `Privilege`). The model only states which privilege the job asks for.
- Password hashing, the cookie cipher, base64, `UserModel::findByNameOrEmail`, `Access::requireEmail`, `TagModel::spawnFromNames` and the configured name regex are uninterpreted. Their code is not part of this model.
- `setcookie`, `$_SESSION` and `serialize`/`unserialize` are modelled as an optional cookie value and a session map holding the user record itself. Real cookie and session I/O is not modelled.
- `Logger::log` and `TextHelper::reprUser`/`reprPost`/`reprTag`: a log entry records its kind plus the raw user name, post id and tag name, not the rendered text.
- `PostModel::save` and `TagModel::removeUnused` are recorded as effects. What they do to storage is not modelled.
- Auth.Login: PHP's loose string `==` on the hashes is a parameter (`Env.looseEquals`). The model does not work out which strings PHP treats as numeric, and `Auth.AppendedCharacterIsRejected` assumes the comparison is an equivalence relation.
- Auth.Message: the error text for a missing e-mail comes from `Access::requireEmail`, which is not part of this model.
- Auth.ParseToken: when a token has no `|`, the password is PHP `null`. The model passes the empty string instead, which `null` coerces to.
- TagCategories.SameNameIgnoringCase: lower-casing covers ASCII letters only. Python's `str.lower` and the database's `lower()` also fold other letters.
- TagCategories.UpdateName: the configured regex and the column-size test are modelled as a predicate and a length bound.
- `with_lockmode('update')`, `db.session.refresh`, autoflush and transaction handling are left out. A category object is identified with its row by id.
- `tag_count` is a natural number. A missing count (`None`, which `or 0` turns into 0) is represented as 0.
- The caller's `db.session.add` of a created category is the helper `TagCategories.Added`, which appends the row with a fresh id.
- `delete_category` does not drop the cached default name. Cache purging happens per request in middleware that is not part of this model, so coherence is proved only for deleting a non-default category.
- `serialize_category`, `get_all_category_names` and `get_all_categories` are left out. The model reads the row count and the rows directly.
- Execution contexts other than NORMAL and BATCH_ADD are represented by one `BatchEdit` value. The literal value of the TAG_NAMES key is defined outside this model.
- Process bootstrap (`src/core.php`), the middleware re-exports, user registration, and the search query grammar are not modelled.

=== FILE: auth.dfy ===
/**
 * The identity/session store: password login with an ordered chain of
 * rejection checks, the remember-me cookie and its auto-login, and the
 * session record that says who the current user is.
 *
 * The user table, the password hash, the cookie cipher, base64 and the e-mail
 * requirement are collaborators whose code lies outside this model; they are
 * fields of `Env` and are otherwise uninterpreted.
 */
module Auth {
  import opened Wrappers

  /** Access ranks, lowest first. */
  datatype AccessRank = Anonymous | Registered | PowerUser | Moderator | Admin

  /** The user record fields that authentication reads. */
  datatype User = User(
    name: string,
    passSalt: string,
    passHash: string,
    staffConfirmed: bool,
    banned: bool,
    accessRank: AccessRank)

  /** The `registration` section of the configuration. */
  datatype RegistrationConfig = RegistrationConfig(
    staffActivation: bool,
    needEmailForRegistering: bool)

  /** Configuration and collaborators. */
  datatype Env = Env(
    registration: RegistrationConfig,
    /** UserModel::findByNameOrEmail */
    findByNameOrEmail: string -> Option<User>,
    /** UserModel::hashPassword(password, salt) */
    hashPassword: (string, string) -> string,
    /**
     * PHP's `==` on two strings. Unlike string equality it compares two
     * numeric-looking strings as numbers, so "0e1" and "0e2" are equal.
     */
    looseEquals: (string, string) -> bool,
    /** true when Access::requireEmail would let the user through */
    emailRequirementMet: User -> bool,
    /** TextHelper::encrypt and TextHelper::decrypt */
    encrypt: string -> string,
    decrypt: string -> string,
    base64Encode: string -> string,
    base64Decode: string -> string,
    /** UserModel::getAnonymousName() */
    anonymousName: string,
    /** the blank record UserModel::spawn() returns */
    spawnedUser: User)

  /** What the session stores under a key: the logged-in flag or the serialized user. */
  datatype SessionValue = Flag(on: bool) | Snapshot(user: User)

  type Session = map<string, SessionValue>

  const LoggedInKey: string := "logged-in"
  const UserKey: string := "user"

  /** The `auth` cookie as the client holds it. */
  datatype Cookie = Cookie(value: string, expires: int, path: string)

  datatype AuthState = AuthState(session: Session, authCookie: Option<Cookie>)

  /** Lifetime of the remember-me cookie: 365 days, in seconds. */
  const RememberSeconds: int := 365 * 24 * 3600

  /** The separator between the two fields of the remember-me token. */
  const Separator: char := '|'

  /** The reasons `Login` refuses, in the order it tests them. */
  datatype LoginError = InvalidUsername | InvalidPassword | PendingActivation | Banned | EmailRequired

  /** The message of each refusal; the e-mail refusal is raised by Access::requireEmail, whose text is not part of this model. */
  function Message(e: LoginError): Option<string>
  {
    match e
    case InvalidUsername => Some("Invalid username")
    case InvalidPassword => Some("Invalid password")
    case PendingActivation => Some("Staff hasn't confirmed your registration yet")
    case Banned => Some("You are banned")
    case EmailRequired => None
  }

  datatype LoginOutcome = LoginOutcome(state: AuthState, result: Outcome<LoginError>)

  /** `loggedIn` is None when there was no cookie to try. */
  datatype AutoLoginOutcome = AutoLoginOutcome(state: AuthState, loggedIn: Option<bool>)

  // ---------------------------------------------------------------------------
  // The session state machine
  // ---------------------------------------------------------------------------

  /** PHP truthiness of a session value: a flag is its own value, a stored user is a non-empty string. */
  predicate Truthy(v: SessionValue)
  {
    match v
    case Flag(on) => on
    case Snapshot(_) => true
  }

  /** Auth::isLoggedIn: the logged-in entry is set and truthy. */
  function IsLoggedIn(s: Session): (b: bool)
    ensures LoggedInKey !in s ==> !b
    ensures LoggedInKey in s && s[LoggedInKey] == Flag(false) ==> !b
    ensures LoggedInKey in s && s[LoggedInKey] == Flag(true) ==> b
  {
    LoggedInKey in s && Truthy(s[LoggedInKey])
  }

  /** Whether someone is logged in depends on the logged-in entry alone: every other key may change freely. */
  lemma IsLoggedInReadsOnlyFlag(s: Session, t: Session)
    requires LoggedInKey in s <==> LoggedInKey in t
    requires LoggedInKey in s ==> s[LoggedInKey] == t[LoggedInKey]
    ensures IsLoggedIn(s) == IsLoggedIn(t)
  {
  }

  /** The session always holds a user snapshot when it says someone is logged in. */
  predicate SessionInvariant(s: Session)
  {
    IsLoggedIn(s) ==> UserKey in s && s[UserKey].Snapshot?
  }

  /** A fresh anonymous user: the spawned blank record with the anonymous name and rank. */
  function AnonymousUser(env: Env): (u: User)
    ensures u.name == env.anonymousName && u.accessRank == Anonymous
  {
    env.spawnedUser.(name := env.anonymousName, accessRank := Anonymous)
  }

  /** Records `user` as the current user; `None` stands for `null` and means the anonymous user. */
  function SetCurrentUser(s: Session, env: Env, user: Option<User>): (r: Session)
    decreases if user.None? then 1 else 0
    ensures IsLoggedIn(r) <==> user.Some? && user.value.accessRank != Anonymous
    ensures UserKey in r && r[UserKey] == Snapshot(if user.Some? then user.value else AnonymousUser(env))
    ensures SessionInvariant(r)
    ensures forall k :: k in s && k != LoggedInKey && k != UserKey ==> k in r && r[k] == s[k]
  {
    match user
    case None => SetCurrentUser(s, env, Some(AnonymousUser(env)))
    case Some(u) => s[LoggedInKey := Flag(u.accessRank != Anonymous)][UserKey := Snapshot(u)]
  }

  function GetCurrentUser(s: Session, env: Env): (u: User)
    requires SessionInvariant(s)
    ensures IsLoggedIn(s) ==> s[UserKey] == Snapshot(u)
    ensures !IsLoggedIn(s) ==> u == AnonymousUser(env)
  {
    if IsLoggedIn(s) then s[UserKey].user else AnonymousUser(env)
  }

  /** Setting `null` is exactly setting the anonymous user. */
  lemma SetNullIsSetAnonymous(s: Session, env: Env)
    ensures SetCurrentUser(s, env, None) == SetCurrentUser(s, env, Some(AnonymousUser(env)))
  {
  }

  /** What `GetCurrentUser` reads back after `SetCurrentUser`. */
  lemma CurrentUserAfterSet(s: Session, env: Env, user: Option<User>)
    ensures var s' := SetCurrentUser(s, env, user);
            GetCurrentUser(s', env)
            == if user.Some? && user.value.accessRank != Anonymous then user.value else AnonymousUser(env)
  {
  }

  function LogOut(st: AuthState, env: Env): (r: AuthState)
    ensures !IsLoggedIn(r.session) && SessionInvariant(r.session)
    ensures GetCurrentUser(r.session, env) == AnonymousUser(env)
    ensures r.authCookie.None?
  {
    AuthState(SetCurrentUser(st.session, env, None), None)
  }

  // ---------------------------------------------------------------------------
  // The remember-me token: explode/implode on '|'
  // ---------------------------------------------------------------------------

  /** PHP implode('|', parts). */
  function Implode(parts: seq<string>): string
  {
    if |parts| == 0 then ""
    else if |parts| == 1 then parts[0]
    else parts[0] + [Separator] + Implode(parts[1..])
  }

  /** PHP explode('|', s): the maximal separator-free pieces; the empty string gives one empty piece. */
  function Explode(s: string): (parts: seq<string>)
    ensures |parts| >= 1
    ensures Implode(parts) == s
    ensures forall i :: 0 <= i < |parts| ==> Separator !in parts[i]
    decreases |s|
  {
    if |s| == 0 then [""]
    else
      var rest := Explode(s[1..]);
      assert s == [s[0]] + s[1..];
      if s[0] == Separator then
        assert Implode([""] + rest) == "" + [Separator] + Implode(rest) by {
          assert ([""] + rest)[1..] == rest;
        }
        [""] + rest
      else
        var parts := [[s[0]] + rest[0]] + rest[1..];
        assert parts[1..] == rest[1..];
        parts
  }

  lemma ExplodeWithoutSeparator(s: string)
    requires Separator !in s
    ensures Explode(s) == [s]
    decreases |s|
  {
  }

  lemma {:induction false} ExplodeAtFirstSeparator(x: string, y: string)
    requires Separator !in x
    ensures Explode(x + [Separator] + y) == [x] + Explode(y)
    decreases |x|
  {
    var s := x + [Separator] + y;
    if |x| == 0 {
      assert s[1..] == y;
    } else {
      assert s[1..] == x[1..] + [Separator] + y;
      assert Separator !in x[1..] by {
        forall i | 0 <= i < |x[1..]| ensures x[1..][i] != Separator {
          assert x[1..][i] == x[i + 1];
        }
      }
      ExplodeAtFirstSeparator(x[1..], y);
      assert [x[0]] + x[1..] == x;
    }
  }

  /** Exploding an imploded list of separator-free pieces gives the pieces back. */
  lemma {:induction false} ExplodeImplode(parts: seq<string>)
    requires |parts| >= 1
    requires forall i :: 0 <= i < |parts| ==> Separator !in parts[i]
    ensures Explode(Implode(parts)) == parts
    decreases |parts|
  {
    if |parts| == 1 {
      ExplodeWithoutSeparator(parts[0]);
    } else {
      ExplodeImplode(parts[1..]);
      ExplodeAtFirstSeparator(parts[0], Implode(parts[1..]));
      assert [parts[0]] + parts[1..] == parts;
    }
  }

  /** The plaintext of the remember-me cookie: base64(name) "|" base64(password). */
  function RememberToken(env: Env, name: string, password: string): string
  {
    Implode([env.base64Encode(name), env.base64Encode(password)])
  }

  /**
   * The name and password tryAutoLogin reads from a decrypted token: the
   * base64-decoded first and second pieces. A token without a separator
   * leaves the password `null`, which hashes as the empty string.
   */
  function ParseToken(env: Env, token: string): (r: (string, string))
    ensures Separator !in token ==> r == (env.base64Decode(token), "")
    ensures forall i :: 0 <= i < |token| && token[i] == Separator && Separator !in token[..i] ==>
              && r.0 == env.base64Decode(token[..i])
              && r.1 == env.base64Decode(Explode(token[i + 1..])[0])
  {
    var parts := Explode(token);
    assert Separator !in token ==> parts == [token] by {
      if Separator !in token {
        ExplodeWithoutSeparator(token);
      }
    }
    assert forall i :: 0 <= i < |token| && token[i] == Separator && Separator !in token[..i] ==>
             parts == [token[..i]] + Explode(token[i + 1..]) by {
      forall i | 0 <= i < |token| && token[i] == Separator && Separator !in token[..i]
        ensures parts == [token[..i]] + Explode(token[i + 1..])
      {
        assert token == token[..i] + [Separator] + token[i + 1..];
        ExplodeAtFirstSeparator(token[..i], token[i + 1..]);
      }
    }
    (env.base64Decode(parts[0]), if |parts| >= 2 then env.base64Decode(parts[1]) else "")
  }

  /** The properties of the cipher and of base64 that the cookie round trip depends on. */
  ghost predicate CodecLaws(env: Env)
  {
    && (forall t :: env.decrypt(env.encrypt(t)) == t)
    && (forall s :: env.base64Decode(env.base64Encode(s)) == s)
    && (forall s :: Separator !in env.base64Encode(s))
  }

  /** PHP's loose string `==` is an equivalence relation on strings. */
  ghost predicate LooseEqualityLaws(env: Env)
  {
    && (forall a :: env.looseEquals(a, a))
    && (forall a, b :: env.looseEquals(a, b) ==> env.looseEquals(b, a))
    && (forall a, b, c :: env.looseEquals(a, b) && env.looseEquals(b, c) ==> env.looseEquals(a, c))
  }

  /** Decrypting and parsing the remember-me cookie recovers the name and password it was made from. */
  lemma RememberTokenRoundTrip(env: Env, name: string, password: string)
    requires CodecLaws(env)
    ensures ParseToken(env, env.decrypt(env.encrypt(RememberToken(env, name, password)))) == (name, password)
  {
    var parts := [env.base64Encode(name), env.base64Encode(password)];
    ExplodeImplode(parts);
  }

  // ---------------------------------------------------------------------------
  // Login
  // ---------------------------------------------------------------------------

  /** The order in which `Login` tests its refusals. */
  const CheckOrder: seq<LoginError> := [InvalidUsername, InvalidPassword, PendingActivation, Banned, EmailRequired]

  /** Whether check `e` refuses `password` for the looked-up user `found`, taken on its own. */
  predicate Refuses(env: Env, found: Option<User>, password: string, e: LoginError)
  {
    match e
    case InvalidUsername => found.None?
    case InvalidPassword => found.Some? && !env.looseEquals(env.hashPassword(password, found.value.passSalt), found.value.passHash)
    case PendingActivation => found.Some? && !found.value.staffConfirmed && env.registration.staffActivation
    case Banned => found.Some? && found.value.banned
    case EmailRequired =>
      found.Some? && env.registration.needEmailForRegistering && !env.emailRequirementMet(found.value)
  }

  /** The position of the first check of `checks` that refuses; `|checks|` when none does. */
  function FirstRefusalIndex(env: Env, found: Option<User>, password: string, checks: seq<LoginError>): (k: nat)
    ensures k <= |checks|
    ensures forall i :: 0 <= i < k ==> !Refuses(env, found, password, checks[i])
    ensures k < |checks| ==> Refuses(env, found, password, checks[k])
  {
    if |checks| == 0 then 0
    else if Refuses(env, found, password, checks[0]) then 0
    else
      var k := FirstRefusalIndex(env, found, password, checks[1..]);
      assert forall i :: 1 <= i < |checks| ==> checks[i] == checks[1..][i - 1];
      k + 1
  }

  /** The error of the first check in `CheckOrder` that refuses, if any. */
  function FirstRefusal(env: Env, found: Option<User>, password: string): Option<LoginError>
  {
    var k := FirstRefusalIndex(env, found, password, CheckOrder);
    if k < |CheckOrder| then Some(CheckOrder[k]) else None
  }

  /**
   * Password login. The checks run in `CheckOrder`; the first that refuses
   * decides the error and leaves the state as it was. When all pass, the
   * cookie is issued if `remember` is set and the user becomes current.
   */
  function Login(st: AuthState, env: Env, name: string, password: string, remember: bool, now: int): (r: LoginOutcome)
    ensures var firstRefusal := FirstRefusal(env, env.findByNameOrEmail(name), password);
            r.result == (if firstRefusal.Some? then Fail(firstRefusal.value) else Pass)
    ensures env.findByNameOrEmail(name).None? ==>
              r.result == Fail(InvalidUsername) && Message(r.result.error) == Some("Invalid username")
    ensures var found := env.findByNameOrEmail(name);
            found.Some? && !env.looseEquals(env.hashPassword(password, found.value.passSalt), found.value.passHash) ==>
              r.result == Fail(InvalidPassword) && Message(r.result.error) == Some("Invalid password")
    ensures r.result.Fail? ==> r.state == st
    ensures r.result.Pass? ==>
              && env.findByNameOrEmail(name).Some?
              && r.state.session == SetCurrentUser(st.session, env, env.findByNameOrEmail(name))
              && r.state.authCookie
                 == if remember
                    then Some(Cookie(env.encrypt(RememberToken(env, name, password)), now + RememberSeconds, "/"))
                    else st.authCookie
  {
    assert CheckOrder[0] == InvalidUsername && CheckOrder[1] == InvalidPassword && CheckOrder[2] == PendingActivation
        && CheckOrder[3] == Banned && CheckOrder[4] == EmailRequired;
    match env.findByNameOrEmail(name)
    case None => LoginOutcome(st, Fail(InvalidUsername))
    case Some(u) =>
      if !env.looseEquals(env.hashPassword(password, u.passSalt), u.passHash) then LoginOutcome(st, Fail(InvalidPassword))
      else if !u.staffConfirmed && env.registration.staffActivation then LoginOutcome(st, Fail(PendingActivation))
      else if u.banned then LoginOutcome(st, Fail(Banned))
      else if env.registration.needEmailForRegistering && !env.emailRequirementMet(u) then
        LoginOutcome(st, Fail(EmailRequired))
      else
        var cookie :=
          if remember
          then Some(Cookie(env.encrypt(RememberToken(env, name, password)), now + RememberSeconds, "/"))
          else st.authCookie;
        LoginOutcome(AuthState(SetCurrentUser(st.session, env, Some(u)), cookie), Pass)
  }

  /** After a successful login, the current user is the looked-up user (or the anonymous user when that record's rank is Anonymous). */
  lemma LoginSetsCurrentUser(st: AuthState, env: Env, name: string, password: string, remember: bool, now: int)
    requires Login(st, env, name, password, remember, now).result.Pass?
    ensures var s := Login(st, env, name, password, remember, now).state.session;
            var u := env.findByNameOrEmail(name).value;
            && SessionInvariant(s)
            && IsLoggedIn(s) == (u.accessRank != Anonymous)
            && GetCurrentUser(s, env) == if u.accessRank != Anonymous then u else AnonymousUser(env)
  {
  }

  /**
   * When the hashes of the password and of the password with one more
   * character do not compare loosely equal, the right password is accepted
   * and the longer one is not.
   */
  lemma AppendedCharacterIsRejected(st: AuthState, env: Env, name: string, password: string, u: User, now: int)
    requires LooseEqualityLaws(env)
    requires env.findByNameOrEmail(name) == Some(u)
    requires env.looseEquals(env.hashPassword(password, u.passSalt), u.passHash)
    requires u.staffConfirmed && !u.banned && !env.registration.needEmailForRegistering
    requires !env.looseEquals(env.hashPassword(password + "!", u.passSalt), env.hashPassword(password, u.passSalt))
    ensures Login(st, env, name, password, false, now).result.Pass?
    ensures Login(st, env, name, password + "!", false, now).result == Fail(InvalidPassword)
    ensures Login(st, env, name, password + "!", false, now).state == st
  {
    var h, h' := env.hashPassword(password, u.passSalt), env.hashPassword(password + "!", u.passSalt);
    assert env.looseEquals(u.passHash, h);
  }

  /**
   * The password check is PHP's loose `!=`: a wrong password is accepted
   * when its hash differs from the stored one as a string but compares
   * equal to it, as two numeric-looking hashes such as "0e1" and "0e2" do.
   */
  lemma LooselyEqualHashLogsIn(st: AuthState, env: Env, name: string, guess: string, u: User, now: int)
    requires env.findByNameOrEmail(name) == Some(u)
    requires env.hashPassword(guess, u.passSalt) != u.passHash
    requires env.looseEquals(env.hashPassword(guess, u.passSalt), u.passHash)
    requires u.staffConfirmed && !u.banned && !env.registration.needEmailForRegistering
    ensures Login(st, env, name, guess, false, now).result.Pass?
    ensures Login(st, env, name, guess, false, now).state.session == SetCurrentUser(st.session, env, Some(u))
  {
  }

  // ---------------------------------------------------------------------------
  // Auto-login
  // ---------------------------------------------------------------------------

  /**
   * Logs in from the remember-me cookie without renewing it. No cookie: no
   * action. Otherwise the outcome says whether the inner login passed; its
   * error never escapes.
   */
  function TryAutoLogin(st: AuthState, env: Env, now: int): (r: AutoLoginOutcome)
    ensures r.loggedIn.None? <==> st.authCookie.None?
    ensures r.loggedIn != Some(true) ==> r.state == st
    ensures r.state.authCookie == st.authCookie
    ensures st.authCookie.Some? ==>
              var (name, password) := ParseToken(env, env.decrypt(st.authCookie.value.value));
              && (r.loggedIn == Some(true) <==> Login(st, env, name, password, false, now).result.Pass?)
              && r.state == Login(st, env, name, password, false, now).state
  {
    match st.authCookie
    case None => AutoLoginOutcome(st, None)
    case Some(c) =>
      var (name, password) := ParseToken(env, env.decrypt(c.value));
      var o := Login(st, env, name, password, false, now);
      AutoLoginOutcome(o.state, Some(o.result.Pass?))
  }

  /**
   * A cookie issued by a remembered login logs the same user in again later,
   * as long as the user table is unchanged. Expiry is the browser's concern:
   * once the cookie has expired it is not sent, so `later` does not enter
   * into the auto-login itself.
   */
  lemma RememberedLoginAutoLogsIn(st: AuthState, env: Env, name: string, password: string, now: int, later: int)
    requires CodecLaws(env)
    requires Login(st, env, name, password, true, now).result.Pass?
    ensures var st' := Login(st, env, name, password, true, now).state;
            var r := TryAutoLogin(st', env, later);
            && r.loggedIn == Some(true)
            && r.state.session == st'.session
  {
    RememberTokenRoundTrip(env, name, password);
    var st' := Login(st, env, name, password, true, now).state;
    var u := env.findByNameOrEmail(name).value;
    var s1 := SetCurrentUser(st.session, env, Some(u));
    var s2 := SetCurrentUser(s1, env, Some(u));
    assert s2 == s1;
  }
}

=== FILE: post_tags.dfy ===
/**
 * The job that replaces a post's tags: its structural precondition, the
 * array check that runs before anything changes, the tag replacement, the
 * save and unused-tag sweep that only a normal (non-batch) run performs,
 * the "untagged"/"tagged" audit entries computed from the before/after tag
 * names, and the privilege the job asks for.
 *
 * TagModel::spawnFromNames is a collaborator whose code lies outside this
 * model; it is passed in as `spawn`, which either yields the tags or fails
 * with a message. The acting user is read from the session through
 * Auth.GetCurrentUser. Saving and sweeping are recorded as effects, and the
 * audit log is an output sequence.
 */
module PostTags {
  import opened Wrappers
  import Auth

  /** The execution context of a job. */
  datatype Context = Normal | BatchAdd | BatchEdit

  /** An argument value: an array of strings or a single scalar. */
  datatype ArgValue = ArrayArg(items: seq<string>) | ScalarArg(text: string)

  type Args = map<string, ArgValue>

  /** The TAG_NAMES argument key; its literal value is defined outside this model. */
  const TagNamesKey: string := "tag-names"

  const ExpectedArray: string := "Expected array"

  /** The two kinds of audit entry the job writes. */
  datatype LogAction = Untagged | Tagged

  /** The Logger template of each kind of entry. */
  function Template(action: LogAction): string
  {
    match action
    case Untagged => "{user} untagged {post} with {tag}"
    case Tagged => "{user} tagged {post} with {tag}"
  }

  datatype Tag = Tag(name: string)

  datatype Post = Post(id: nat, uploader: Option<string>, tags: seq<Tag>)

  datatype PrivilegeKind = AddPostTags | EditPostTags

  /** A privilege to check, scoped to the identity of the post's uploader. */
  datatype Privilege = Privilege(kind: PrivilegeKind, owner: Option<string>)

  /** Persistence calls a run makes: PostModel::save and TagModel::removeUnused. */
  datatype Effect = SavePost(post: Post) | RemoveUnusedTags

  /** A log line: its kind, which fixes its template, and the user, post and tag that fill it in. */
  datatype LogEntry = LogEntry(action: LogAction, user: string, post: nat, tag: string)

  /** The post being edited, the persistence calls made so far, and the log. */
  datatype JobState = JobState(post: Post, effects: seq<Effect>, log: seq<LogEntry>)

  datatype JobOutcome = JobOutcome(state: JobState, result: Result<Post, string>)

  predicate IsSatisfied(args: Args)
  {
    TagNamesKey in args
  }

  /** The job is satisfied exactly when TAG_NAMES is present, whatever its value. */
  lemma SatisfiedIffTagNamesPresent(args: Args, v: ArgValue)
    ensures IsSatisfied(args[TagNamesKey := v])
    ensures !IsSatisfied(args - {TagNamesKey})
  {
  }

  function Names(tags: seq<Tag>): (r: seq<string>)
    ensures |r| == |tags|
    ensures forall i :: 0 <= i < |tags| ==> r[i] == tags[i].name
  {
    if |tags| == 0 then [] else [tags[0].name] + Names(tags[1..])
  }

  /**
   * PHP array_diff(a, b): the elements of `a` that do not occur in `b`, in
   * their order in `a`, each kept as often as it occurs there.
   */
  function ArrayDiff(a: seq<string>, b: seq<string>): (r: seq<string>)
    ensures forall x :: x in r <==> x in a && x !in b
    ensures forall x :: multiset(r)[x] == if x in b then 0 else multiset(a)[x]
  {
    if |a| == 0 then []
    else
      var rest := ArrayDiff(a[1..], b);
      assert a == [a[0]] + a[1..];
      if a[0] in b then rest else [a[0]] + rest
  }

  /** The log entries for `tags`, one per element, in order. */
  function Entries(action: LogAction, user: string, post: nat, tags: seq<string>): seq<LogEntry>
  {
    if |tags| == 0 then [] else [LogEntry(action, user, post, tags[0])] + Entries(action, user, post, tags[1..])
  }

  /** The entries a run appends: "untagged" for old names the new list lacks, then "tagged" for new names the old list lacks. */
  function DiffEntries(user: string, post: nat, oldNames: seq<string>, newNames: seq<string>): seq<LogEntry>
  {
    Entries(Untagged, user, post, ArrayDiff(oldNames, newNames)) + Entries(Tagged, user, post, ArrayDiff(newNames, oldNames))
  }

  /** The tags named by those entries of `log` that use `action`, in order. */
  function TagsLogged(log: seq<LogEntry>, action: LogAction): (r: seq<string>)
    ensures |r| <= |log|
  {
    if |log| == 0 then []
    else if log[0].action == action then [log[0].tag] + TagsLogged(log[1..], action)
    else TagsLogged(log[1..], action)
  }

  /** The tag spawner: TagModel::spawnFromNames, which may fail with a message. */
  type Spawner = seq<string> -> Result<seq<Tag>, string>

  /**
   * EditPostTagsJob::execute, for a job whose precondition held. A scalar
   * TAG_NAMES fails before anything changes, and so does a failure to spawn
   * the tags, whose message is passed on. Otherwise the post takes the
   * spawned tags, a normal run saves it and sweeps unused tags, and the log
   * gains one "untagged" entry per old name the new list lacks, then one
   * "tagged" entry per new name the old list lacks, each naming the current
   * user of `session`.
   */
  function Execute(st: JobState, args: Args, context: Context, session: Auth.Session, env: Auth.Env, spawn: Spawner): (r: JobOutcome)
    requires IsSatisfied(args) && Auth.SessionInvariant(session)
    ensures r.result.Err? <==> args[TagNamesKey].ScalarArg? || spawn(args[TagNamesKey].items).Err?
    ensures r.result.Err? ==> r.state == st
    ensures args[TagNamesKey].ScalarArg? ==> r.result == Err(ExpectedArray)
    ensures args[TagNamesKey].ArrayArg? && spawn(args[TagNamesKey].items).Err? ==>
              r.result == Err(spawn(args[TagNamesKey].items).error)
    ensures r.result.Ok? ==>
              && r.result.value == r.state.post
              && r.state.post.id == st.post.id
              && r.state.post.uploader == st.post.uploader
              && r.state.post.tags == spawn(args[TagNamesKey].items).value
    ensures r.result.Ok? && context == Normal ==>
              r.state.effects == st.effects + [SavePost(r.state.post), RemoveUnusedTags]
    ensures r.result.Ok? && context != Normal ==> r.state.effects == st.effects
    ensures |st.log| <= |r.state.log| && r.state.log[..|st.log|] == st.log
  {
    match args[TagNamesKey]
    case ScalarArg(_) => JobOutcome(st, Err(ExpectedArray))
    case ArrayArg(names) =>
      match spawn(names)
      case Err(message) => JobOutcome(st, Err(message))
      case Ok(tags) =>
        var oldNames := Names(st.post.tags);
        var post := st.post.(tags := tags);
        var newNames := Names(post.tags);
        var effects := if context == Normal then st.effects + [SavePost(post), RemoveUnusedTags] else st.effects;
        var user := Auth.GetCurrentUser(session, env).name;
        JobOutcome(JobState(post, effects, st.log + DiffEntries(user, post.id, oldNames, newNames)), Ok(post))
  }

  /** EditPostTagsJob::requiresPrivilege: AddPostTags in a batch-add run, EditPostTags otherwise, scoped to the uploader. */
  function RequiredPrivilege(context: Context, post: Post): (p: Privilege)
    ensures p.kind == AddPostTags <==> context == BatchAdd
    ensures p.owner == post.uploader
  {
    Privilege(if context == BatchAdd then AddPostTags else EditPostTags, post.uploader)
  }

  // ---------------------------------------------------------------------------
  // Lemmas
  // ---------------------------------------------------------------------------

  lemma {:induction false} TagsLoggedAppend(a: seq<LogEntry>, b: seq<LogEntry>, action: LogAction)
    ensures TagsLogged(a + b, action) == TagsLogged(a, action) + TagsLogged(b, action)
    decreases |a|
  {
    if |a| == 0 {
      assert a + b == b;
    } else {
      assert (a + b)[0] == a[0];
      assert (a + b)[1..] == a[1..] + b;
      TagsLoggedAppend(a[1..], b, action);
    }
  }

  lemma {:induction false} TagsLoggedEntries(action: LogAction, other: LogAction, user: string, post: nat, tags: seq<string>)
    ensures TagsLogged(Entries(action, user, post, tags), action) == tags
    ensures other != action ==> TagsLogged(Entries(other, user, post, tags), action) == []
    decreases |tags|
  {
    if |tags| > 0 {
      TagsLoggedEntries(action, other, user, post, tags[1..]);
      assert [tags[0]] + tags[1..] == tags;
    }
  }

  /** What an "untagged" block followed by a "tagged" block names, per kind. */
  lemma TwoBlockLog(removed: seq<string>, added: seq<string>, user: string, post: nat)
    ensures var log := Entries(Untagged, user, post, removed) + Entries(Tagged, user, post, added);
            && TagsLogged(log, Untagged) == removed
            && TagsLogged(log, Tagged) == added
            && (forall e :: e in log ==> e.user == user && e.post == post)
  {
    var untagged := Entries(Untagged, user, post, removed);
    var tagged := Entries(Tagged, user, post, added);
    TagsLoggedAppend(untagged, tagged, Untagged);
    TagsLoggedAppend(untagged, tagged, Tagged);
    TagsLoggedEntries(Untagged, Tagged, user, post, removed);
    TagsLoggedEntries(Untagged, Tagged, user, post, added);
    TagsLoggedEntries(Tagged, Untagged, user, post, removed);
    TagsLoggedEntries(Tagged, Untagged, user, post, added);
    EntriesAreBy(Untagged, user, post, removed);
    EntriesAreBy(Tagged, user, post, added);
    assert removed + [] == removed;
    assert [] + added == added;
  }

  /**
   * The log entries a successful run adds: the "untagged" block, in
   * `array_diff(old, new)` order, then the "tagged" block, in
   * `array_diff(new, old)` order. So for each tag name `n` they name, as
   * "untagged", each occurrence of `n` among the old names when `n` is not
   * among the new ones, and never otherwise; as "tagged", symmetrically.
   */
  lemma LogIsTagDiff(st: JobState, args: Args, context: Context, session: Auth.Session, env: Auth.Env, spawn: Spawner, n: string)
    requires IsSatisfied(args) && Auth.SessionInvariant(session)
    requires Execute(st, args, context, session, env, spawn).result.Ok?
    ensures var r := Execute(st, args, context, session, env, spawn);
            var actor := Auth.GetCurrentUser(session, env);
            var added := r.state.log[|st.log|..];
            var oldNames := Names(st.post.tags);
            var newNames := Names(r.state.post.tags);
            && TagsLogged(added, Untagged) == ArrayDiff(oldNames, newNames)
            && TagsLogged(added, Tagged) == ArrayDiff(newNames, oldNames)
            && (forall i, j :: 0 <= i < j < |added| && added[j].action == Untagged ==> added[i].action == Untagged)
            && multiset(TagsLogged(added, Untagged))[n] == (if n in newNames then 0 else multiset(oldNames)[n])
            && multiset(TagsLogged(added, Tagged))[n] == (if n in oldNames then 0 else multiset(newNames)[n])
            && (forall e :: e in added ==> e.user == actor.name && e.post == st.post.id)
  {
    var r := Execute(st, args, context, session, env, spawn);
    var actor := Auth.GetCurrentUser(session, env);
    var oldNames := Names(st.post.tags);
    var newNames := Names(r.state.post.tags);
    var blocks := DiffEntries(actor.name, st.post.id, oldNames, newNames);
    assert r.state.log == st.log + blocks;
    assert r.state.log[|st.log|..] == blocks;
    TwoBlockLog(ArrayDiff(oldNames, newNames), ArrayDiff(newNames, oldNames), actor.name, st.post.id);
    UntaggedBlockFirst(ArrayDiff(oldNames, newNames), ArrayDiff(newNames, oldNames), actor.name, st.post.id);
  }

  /** In an "untagged" block followed by a "tagged" block, no "untagged" entry follows a "tagged" one. */
  lemma UntaggedBlockFirst(removed: seq<string>, added: seq<string>, user: string, post: nat)
    ensures var log := Entries(Untagged, user, post, removed) + Entries(Tagged, user, post, added);
            forall i, j :: 0 <= i < j < |log| && log[j].action == Untagged ==> log[i].action == Untagged
  {
    var untagged := Entries(Untagged, user, post, removed);
    var tagged := Entries(Tagged, user, post, added);
    var log := untagged + tagged;
    EntriesAreBy(Untagged, user, post, removed);
    EntriesAreBy(Tagged, user, post, added);
    forall k | 0 <= k < |log|
      ensures log[k].action == if k < |untagged| then Untagged else Tagged
    {
      if k < |untagged| {
        assert log[k] == untagged[k] && untagged[k] in untagged;
      } else {
        assert log[k] == tagged[k - |untagged|] && tagged[k - |untagged|] in tagged;
      }
    }
  }

  lemma {:induction false} EntriesAreBy(action: LogAction, user: string, post: nat, tags: seq<string>)
    ensures forall e :: e in Entries(action, user, post, tags) ==> e.user == user && e.post == post && e.action == action
    decreases |tags|
  {
    if |tags| > 0 {
      EntriesAreBy(action, user, post, tags[1..]);
    }
  }

  lemma ExampleNames()
    ensures Names([Tag("a"), Tag("b")]) == ["a", "b"]
    ensures Names([Tag("b"), Tag("c")]) == ["b", "c"]
  {
  }

  lemma ExampleDiffs()
    ensures ArrayDiff(["a", "b"], ["b", "c"]) == ["a"]
    ensures ArrayDiff(["b", "c"], ["a", "b"]) == ["c"]
  {
  }

  lemma ExampleEntries(user: string, post: nat)
    ensures DiffEntries(user, post, ["a", "b"], ["b", "c"])
            == [LogEntry(Untagged, user, post, "a"), LogEntry(Tagged, user, post, "c")]
  {
    ExampleDiffs();
    assert ["a"][1..] == [] && ["c"][1..] == [];
    assert Entries(Untagged, user, post, ["a"]) == [LogEntry(Untagged, user, post, "a")];
    assert Entries(Tagged, user, post, ["c"]) == [LogEntry(Tagged, user, post, "c")];
  }

  /** Editing {a, b} to {b, c} logs exactly "untagged a" and then "tagged c", by the current user. */
  lemma EditExample(st: JobState, session: Auth.Session, env: Auth.Env, spawn: Spawner)
    requires Auth.SessionInvariant(session)
    requires st.post.tags == [Tag("a"), Tag("b")]
    requires spawn(["b", "c"]) == Ok([Tag("b"), Tag("c")])
    ensures var r := Execute(st, map[TagNamesKey := ArrayArg(["b", "c"])], Normal, session, env, spawn);
            var user := Auth.GetCurrentUser(session, env).name;
            && r.result.Ok?
            && r.state.log == st.log + [LogEntry(Untagged, user, st.post.id, "a"),
                                        LogEntry(Tagged, user, st.post.id, "c")]
            && Template(r.state.log[|st.log|].action) == "{user} untagged {post} with {tag}"
            && Template(r.state.log[|st.log| + 1].action) == "{user} tagged {post} with {tag}"
  {
    ExampleNames();
    ExampleEntries(Auth.GetCurrentUser(session, env).name, st.post.id);
  }

  /** A run never changes the privilege the job requires: the uploader is kept. */
  lemma PrivilegeStableAcrossExecute(st: JobState, args: Args, context: Context, session: Auth.Session, env: Auth.Env, spawn: Spawner, later: Context)
    requires IsSatisfied(args) && Auth.SessionInvariant(session)
    ensures RequiredPrivilege(later, Execute(st, args, context, session, env, spawn).state.post) == RequiredPrivilege(later, st.post)
  {
  }
}

=== FILE: tag_categories.dfy ===
/**
 * The tag-category store rules: name and colour validation, name
 * uniqueness ignoring case, the first category becoming the default, the
 * default lookup with its smallest-id fallback, moving the default flag,
 * the delete guards and the cached default name.
 *
 * The database is a sequence of category rows in query order together with
 * the cached default name. A category object is tied to its row by its id;
 * id 0 stands for an object that has not been flushed yet (a falsy id).
 */
module TagCategories {
  import opened Wrappers

  datatype Category = Category(id: nat, name: string, color: string, isDefault: bool, tagCount: nat)

  /** The configured name regex and the sizes of the name and colour columns. */
  datatype Config = Config(nameMatchesRegex: string -> bool, nameColumnSize: nat, colorColumnSize: nat)

  /** The category rows and the cache entry under 'default-tag-category'. */
  datatype Db = Db(categories: seq<Category>, defaultNameCache: Option<string>)

  /**
   * The errors raised. NameEmpty, NameTooLong and NameMismatchesRegex are
   * InvalidTagCategoryNameError; NameAlreadyExists is
   * TagCategoryAlreadyExistsError; the colour errors are
   * InvalidTagCategoryColorError; NotFound is TagCategoryNotFoundError;
   * LastCategory and InUse are TagCategoryIsInUseError; MultipleFound is the
   * query layer's error when a one-or-none lookup matches several rows.
   */
  datatype CategoryError =
    | NameEmpty | NameAlreadyExists | NameTooLong | NameMismatchesRegex
    | ColorEmpty | ColorInvalid | ColorTooLong
    | NotFound | MultipleFound
    | LastCategory | InUse

  /** The database after an operation, and what the operation returned or raised. */
  datatype Step<+T> = Step(db: Db, result: Result<T, CategoryError>)

  // ---------------------------------------------------------------------------
  // Names and colours
  // ---------------------------------------------------------------------------

  function LowerChar(c: char): char
  {
    if 'A' <= c <= 'Z' then (c as int - 'A' as int + 'a' as int) as char else c
  }

  /** Lower-casing, as both the query and the Python side apply it (ASCII letters only). */
  function Lower(s: string): (r: string)
    ensures |r| == |s|
  {
    seq(|s|, i requires 0 <= i < |s| => LowerChar(s[i]))
  }

  predicate SameNameIgnoringCase(a: string, b: string)
  {
    Lower(a) == Lower(b)
  }

  /** Some row other than the one with id `ownId` (none excluded when it is 0) has this name, ignoring case. */
  predicate NameTaken(cats: seq<Category>, name: string, ownId: nat)
  {
    exists i | 0 <= i < |cats| :: SameNameIgnoringCase(cats[i].name, name) && (ownId == 0 || cats[i].id != ownId)
  }

  predicate ColorChar(c: char)
  {
    '0' <= c <= '9' || 'a' <= c <= 'z'
  }

  predicate ColorBody(s: string)
  {
    |s| > 0 && forall i :: 0 <= i < |s| ==> ColorChar(s[i])
  }

  predicate ColorPattern(s: string)
  {
    ColorBody(s) || (|s| > 0 && s[0] == '#' && ColorBody(s[1..]))
  }

  /**
   * re.match(r'^#?[0-9a-z]+$', color): an optional '#' and at least one
   * digit or lower-case letter. Python's `$` also matches just before a
   * final newline, so one trailing "\n" is let through.
   */
  predicate ColorMatches(s: string)
  {
    ColorPattern(s) || (|s| > 0 && s[|s| - 1] == '\n' && ColorPattern(s[..|s| - 1]))
  }

  /** Which colours the regex admits. */
  lemma ColorExamples()
    ensures ColorMatches("#ff00aa") && ColorMatches("red") && ColorMatches("#0\n")
    ensures !ColorMatches("#") && !ColorMatches("#FFF") && !ColorMatches("") && !ColorMatches("#a b")
  {
    assert "#ff00aa"[1..] == "ff00aa";
    assert "#0\n"[..2] == "#0" && "#0"[1..] == "0";
    assert !ColorBody("#FFF"[1..]) by { assert "#FFF"[1..][0] == 'F'; }
    assert !ColorBody("#a b"[1..]) by { assert "#a b"[1..][1] == ' '; }
    assert !ColorBody("#a b") by { assert "#a b"[0] == '#'; }
    assert !ColorBody("#FFF") by { assert "#FFF"[0] == '#'; }
    assert !ColorBody("#") by { assert "#"[0] == '#'; }
  }

  // ---------------------------------------------------------------------------
  // Writing an object back to its row
  // ---------------------------------------------------------------------------

  /** The rows after applying `f` to the row of the object with id `id`; an unflushed object (id 0) has no row. */
  function WriteBack(cats: seq<Category>, id: nat, f: Category -> Category): (r: seq<Category>)
    ensures |r| == |cats|
    ensures forall i :: 0 <= i < |cats| ==> r[i] == if id != 0 && cats[i].id == id then f(cats[i]) else cats[i]
  {
    seq(|cats|, i requires 0 <= i < |cats| => if id != 0 && cats[i].id == id then f(cats[i]) else cats[i])
  }

  // ---------------------------------------------------------------------------
  // Store invariants
  // ---------------------------------------------------------------------------

  predicate IdsPositive(cats: seq<Category>)
  {
    forall i :: 0 <= i < |cats| ==> cats[i].id > 0
  }

  predicate IdsUnique(cats: seq<Category>)
  {
    forall i, j :: 0 <= i < j < |cats| ==> cats[i].id != cats[j].id
  }

  predicate NamesUnique(cats: seq<Category>)
  {
    forall i, j :: 0 <= i < j < |cats| ==> !SameNameIgnoringCase(cats[i].name, cats[j].name)
  }

  predicate AtMostOneDefault(cats: seq<Category>)
  {
    forall i, j :: 0 <= i < j < |cats| ==> !(cats[i].isDefault && cats[j].isDefault)
  }

  /** The store invariant: persisted ids, unique ids, names unique ignoring case, at most one default. */
  predicate Valid(cats: seq<Category>)
  {
    IdsPositive(cats) && IdsUnique(cats) && NamesUnique(cats) && AtMostOneDefault(cats)
  }

  // ---------------------------------------------------------------------------
  // Updates
  // ---------------------------------------------------------------------------

  /**
   * update_category_name. Checks, in order: empty; taken by another row
   * ignoring case; longer than the column; rejected by the configured regex.
   * On success only the name changes, on the object and on its row, and the
   * cached default name is dropped. On failure nothing changes.
   */
  function UpdateName(db: Db, cfg: Config, c: Category, name: string): (r: Step<Category>)
    ensures r.result.Ok? <==> NameAcceptable(db.categories, cfg, name, c.id)
    ensures r.result == Err(NameEmpty) <==> |name| == 0
    ensures r.result == Err(NameAlreadyExists) <==> |name| > 0 && NameTaken(db.categories, name, c.id)
    ensures r.result == Err(NameTooLong) <==>
              |name| > 0 && !NameTaken(db.categories, name, c.id) && |name| > cfg.nameColumnSize
    ensures r.result == Err(NameMismatchesRegex) <==>
              |name| > 0 && !NameTaken(db.categories, name, c.id) && |name| <= cfg.nameColumnSize
              && !cfg.nameMatchesRegex(name)
    ensures r.result.Err? ==> r.db == db
    ensures r.result.Ok? ==>
              && r.result.value.name == name
              && r.result.value.(name := c.name) == c
              && r.db.defaultNameCache.None?
              && |r.db.categories| == |db.categories|
              && forall i :: 0 <= i < |db.categories| ==>
                   r.db.categories[i]
                   == if c.id != 0 && db.categories[i].id == c.id then db.categories[i].(name := name) else db.categories[i]
  {
    if |name| == 0 then Step(db, Err(NameEmpty))
    else if NameTaken(db.categories, name, c.id) then Step(db, Err(NameAlreadyExists))
    else if |name| > cfg.nameColumnSize then Step(db, Err(NameTooLong))
    else if !cfg.nameMatchesRegex(name) then Step(db, Err(NameMismatchesRegex))
    else Step(Db(WriteBack(db.categories, c.id, (row: Category) => row.(name := name)), None), Ok(c.(name := name)))
  }

  /** A colour update_category_color accepts. */
  predicate ColorAcceptable(cfg: Config, color: string)
  {
    |color| > 0 && ColorMatches(color) && |color| <= cfg.colorColumnSize
  }

  /**
   * update_category_color. Checks, in order: empty; the colour regex; longer
   * than the column. On success only the colour changes, on the object and
   * on its row. On failure nothing changes.
   */
  function UpdateColor(db: Db, cfg: Config, c: Category, color: string): (r: Step<Category>)
    ensures r.result.Ok? <==> ColorAcceptable(cfg, color)
    ensures r.result == Err(ColorEmpty) <==> |color| == 0
    ensures r.result == Err(ColorInvalid) <==> |color| > 0 && !ColorMatches(color)
    ensures r.result == Err(ColorTooLong) <==> |color| > 0 && ColorMatches(color) && |color| > cfg.colorColumnSize
    ensures r.result.Err? ==> r.db == db
    ensures r.result.Ok? ==>
              && r.result.value.color == color
              && r.result.value.(color := c.color) == c
              && r.db.defaultNameCache == db.defaultNameCache
              && |r.db.categories| == |db.categories|
              && forall i :: 0 <= i < |db.categories| ==>
                   r.db.categories[i]
                   == if c.id != 0 && db.categories[i].id == c.id then db.categories[i].(color := color) else db.categories[i]
  {
    if |color| == 0 then Step(db, Err(ColorEmpty))
    else if !ColorMatches(color) then Step(db, Err(ColorInvalid))
    else if |color| > cfg.colorColumnSize then Step(db, Err(ColorTooLong))
    else Step(Db(WriteBack(db.categories, c.id, (row: Category) => row.(color := color)), db.defaultNameCache), Ok(c.(color := color)))
  }

  /** A name update_category_name accepts for the object with id `ownId`. */
  predicate NameAcceptable(cats: seq<Category>, cfg: Config, name: string, ownId: nat)
  {
    |name| > 0 && !NameTaken(cats, name, ownId) && |name| <= cfg.nameColumnSize && cfg.nameMatchesRegex(name)
  }

  /**
   * create_category: a new, unflushed category named and coloured as asked,
   * which is the default exactly when no category exists yet. The rows are
   * never touched. A colour error comes after the name was accepted, so the
   * cached default name has been dropped by then.
   */
  function CreateCategory(db: Db, cfg: Config, name: string, color: string): (r: Step<Category>)
    ensures r.result.Ok? <==> NameAcceptable(db.categories, cfg, name, 0) && ColorAcceptable(cfg, color)
    ensures r.result.Ok? ==>
              && r.result.value == Category(0, name, color, |db.categories| == 0, 0)
              && r.db == db.(defaultNameCache := None)
    ensures !NameAcceptable(db.categories, cfg, name, 0) ==>
              && r.db == db
              && r.result == Err(UpdateName(db, cfg, Category(0, "", "", false, 0), name).result.error)
    ensures NameAcceptable(db.categories, cfg, name, 0) && !ColorAcceptable(cfg, color) ==>
              && r.db == db.(defaultNameCache := None)
              && r.result == Err(UpdateColor(db, cfg, Category(0, name, "", false, 0), color).result.error)
    ensures r.db.categories == db.categories
  {
    var named := UpdateName(db, cfg, Category(0, "", "", false, 0), name);
    match named.result
    case Err(e) => Step(named.db, Err(e))
    case Ok(c) =>
      var colored := UpdateColor(named.db, cfg, c, color);
      match colored.result
      case Err(e) => Step(colored.db, Err(e))
      case Ok(c') => Step(colored.db, Ok(c'.(isDefault := |colored.db.categories| == 0)))
  }

  // ---------------------------------------------------------------------------
  // Lookups
  // ---------------------------------------------------------------------------

  /** The rows whose name equals `name` ignoring case, in order. */
  function Matching(cats: seq<Category>, name: string): (r: seq<Category>)
    ensures |r| <= |cats|
    ensures forall x :: x in r <==> x in cats && SameNameIgnoringCase(x.name, name)
    ensures |r| == 0 <==> forall x :: x in cats ==> !SameNameIgnoringCase(x.name, name)
  {
    if |cats| == 0 then []
    else
      var rest := Matching(cats[1..], name);
      assert forall x :: x in cats <==> x == cats[0] || x in cats[1..];
      if SameNameIgnoringCase(cats[0].name, name) then [cats[0]] + rest else rest
  }

  /** try_get_category_by_name: the one row with this name ignoring case, none, or an error when several match. */
  function TryGetByName(cats: seq<Category>, name: string): (r: Result<Option<Category>, CategoryError>)
    ensures r == Ok(None) <==> forall x :: x in cats ==> !SameNameIgnoringCase(x.name, name)
    ensures r.Ok? && r.value.Some? ==> r.value.value in cats && SameNameIgnoringCase(r.value.value.name, name)
    ensures r.Err? ==> r.error == MultipleFound
    ensures r.Err? <==> |Matching(cats, name)| >= 2
    ensures |Matching(cats, name)| == 1 ==> r == Ok(Some(Matching(cats, name)[0]))
  {
    var found := Matching(cats, name);
    if |found| == 0 then Ok(None)
    else if |found| == 1 then assert found[0] in found; Ok(Some(found[0]))
    else Err(MultipleFound)
  }

  /** get_category_by_name: NotFound exactly when the lookup finds nothing. */
  function GetByName(cats: seq<Category>, name: string): (r: Result<Category, CategoryError>)
    ensures r == Err(NotFound) <==> TryGetByName(cats, name) == Ok(None)
    ensures r.Ok? <==> TryGetByName(cats, name).Ok? && TryGetByName(cats, name).value.Some?
    ensures r.Ok? ==> r.value in cats && SameNameIgnoringCase(r.value.name, name)
    ensures TryGetByName(cats, name).Err? ==> r.Err? && r.error == TryGetByName(cats, name).error
  {
    match TryGetByName(cats, name)
    case Err(e) => Err(e)
    case Ok(None) => Err(NotFound)
    case Ok(Some(c)) => Ok(c)
  }

  /** In a store with unique names a lookup by name is never ambiguous. */
  lemma {:induction false} UniqueNamesMatchAtMostOne(cats: seq<Category>, name: string)
    requires NamesUnique(cats)
    ensures |Matching(cats, name)| <= 1
    ensures TryGetByName(cats, name).Ok?
    decreases |cats|
  {
    if |cats| > 0 {
      assert NamesUnique(cats[1..]) by {
        forall i, j | 0 <= i < j < |cats[1..]|
          ensures !SameNameIgnoringCase(cats[1..][i].name, cats[1..][j].name)
        {
          assert cats[1..][i] == cats[i + 1] && cats[1..][j] == cats[j + 1];
        }
      }
      UniqueNamesMatchAtMostOne(cats[1..], name);
      if SameNameIgnoringCase(cats[0].name, name) {
        forall x | x in cats[1..] ensures !SameNameIgnoringCase(x.name, name) {
          var j :| 0 <= j < |cats[1..]| && cats[1..][j] == x;
          assert cats[j + 1] == x;
        }
      }
    }
  }

  predicate HasDefault(cats: seq<Category>)
  {
    exists i :: 0 <= i < |cats| && cats[i].isDefault
  }

  /** The first row flagged as default, if any. */
  function FirstDefault(cats: seq<Category>): (r: Option<Category>)
    ensures r.Some? <==> HasDefault(cats)
    ensures r.Some? ==> r.value in cats && r.value.isDefault
  {
    if |cats| == 0 then None
    else if cats[0].isDefault then Some(cats[0])
    else
      var r := FirstDefault(cats[1..]);
      assert HasDefault(cats) ==> HasDefault(cats[1..]) by {
        if HasDefault(cats) {
          var i :| 0 <= i < |cats| && cats[i].isDefault;
          assert cats[1..][i - 1] == cats[i];
        }
      }
      assert HasDefault(cats[1..]) ==> HasDefault(cats) by {
        if HasDefault(cats[1..]) {
          var i :| 0 <= i < |cats[1..]| && cats[1..][i].isDefault;
          assert cats[i + 1] == cats[1..][i];
        }
      }
      r
  }

  /** The row with the smallest id (the earliest among equal ids), if any. */
  function SmallestId(cats: seq<Category>): (r: Option<Category>)
    ensures r.None? <==> |cats| == 0
    ensures r.Some? ==> r.value in cats && forall x :: x in cats ==> r.value.id <= x.id
  {
    if |cats| == 0 then None
    else
      assert forall x :: x in cats <==> x == cats[0] || x in cats[1..];
      match SmallestId(cats[1..])
      case None => Some(cats[0])
      case Some(m) => if cats[0].id <= m.id then Some(cats[0]) else Some(m)
  }

  /**
   * try_get_default_category: a row flagged as default, or, when none is,
   * the row with the smallest id. Nothing only when the store is empty.
   */
  function TryGetDefault(cats: seq<Category>): (r: Option<Category>)
    ensures r.None? <==> |cats| == 0
    ensures r.Some? ==> r.value in cats
    ensures HasDefault(cats) ==> r.Some? && r.value.isDefault
    ensures !HasDefault(cats) && r.Some? ==> forall x :: x in cats ==> r.value.id <= x.id
  {
    match FirstDefault(cats)
    case Some(c) => Some(c)
    case None => SmallestId(cats)
  }

  /** get_default_category: NotFound exactly when the store is empty. */
  function GetDefault(cats: seq<Category>): (r: Result<Category, CategoryError>)
    ensures r.Err? <==> |cats| == 0
    ensures r.Err? ==> r.error == NotFound
    ensures r.Ok? ==> Some(r.value) == TryGetDefault(cats)
  {
    match TryGetDefault(cats)
    case None => Err(NotFound)
    case Some(c) => Ok(c)
  }

  /** The cached default name, when present, is the name of the current default category. */
  predicate CacheCoherent(db: Db)
  {
    db.defaultNameCache.Some? ==>
      TryGetDefault(db.categories).Some? && db.defaultNameCache.value == TryGetDefault(db.categories).value.name
  }

  /**
   * get_default_category_name: the cached name if there is one; otherwise
   * the default category's name, which is then cached. Over a coherent
   * cache the answer is the uncached one and the cache stays coherent.
   */
  function GetDefaultName(db: Db): (r: Step<string>)
    ensures r.db.categories == db.categories
    ensures db.defaultNameCache.Some? ==> r == Step(db, Ok(db.defaultNameCache.value))
    ensures db.defaultNameCache.None? && r.result.Ok? ==> r.db == db.(defaultNameCache := Some(r.result.value))
    ensures db.defaultNameCache.None? && r.result.Err? ==> r.db == db
    ensures CacheCoherent(db) ==>
              && CacheCoherent(r.db)
              && (r.result.Ok? <==> |db.categories| > 0)
              && (r.result.Ok? ==> r.result.value == TryGetDefault(db.categories).value.name)
              && (r.result.Err? ==> r.result.error == NotFound)
  {
    match db.defaultNameCache
    case Some(n) => Step(db, Ok(n))
    case None =>
      match GetDefault(db.categories)
      case Err(e) => Step(db, Err(e))
      case Ok(c) => Step(db.(defaultNameCache := Some(c.name)), Ok(c.name))
  }

  // ---------------------------------------------------------------------------
  // Default flag and deletion
  // ---------------------------------------------------------------------------

  /**
   * set_default_category: clears the flag of the category the default
   * lookup finds, then sets the flag of `c`, and drops the cached default
   * name. Only default flags change. Over a store with persisted ids and at
   * most one default, `c` ends up the only default.
   */
  function SetDefault(db: Db, c: Category): (r: Db)
    requires c in db.categories && c.id > 0
    ensures r.defaultNameCache.None?
    ensures |r.categories| == |db.categories|
    ensures forall i :: 0 <= i < |db.categories| ==>
              r.categories[i] == db.categories[i].(isDefault := r.categories[i].isDefault)
    ensures forall i :: 0 <= i < |db.categories| && db.categories[i].id == c.id ==> r.categories[i].isDefault
    ensures IdsPositive(db.categories) && AtMostOneDefault(db.categories) ==>
              forall i :: 0 <= i < |db.categories| ==> (r.categories[i].isDefault <==> r.categories[i].id == c.id)
  {
    var previous := TryGetDefault(db.categories);
    assert AtMostOneDefault(db.categories) ==>
             forall i :: 0 <= i < |db.categories| && db.categories[i].isDefault ==> previous == Some(db.categories[i]) by {
      if AtMostOneDefault(db.categories) {
        forall i | 0 <= i < |db.categories| && db.categories[i].isDefault
          ensures previous == Some(db.categories[i])
        {
          OnlyDefaultIsFound(db.categories, i);
        }
      }
    }
    var cleared :=
      if previous.Some? then WriteBack(db.categories, previous.value.id, (row: Category) => row.(isDefault := false))
      else db.categories;
    Db(WriteBack(cleared, c.id, (row: Category) => row.(isDefault := true)), None)
  }

  /** With at most one default, the default lookup finds the flagged row. */
  lemma OnlyDefaultIsFound(cats: seq<Category>, i: int)
    requires AtMostOneDefault(cats)
    requires 0 <= i < |cats| && cats[i].isDefault
    ensures TryGetDefault(cats) == Some(cats[i])
  {
  }

  /**
   * delete_category: refused when only one category exists, then when the
   * category has tags; otherwise its row goes and every other row stays, in
   * order. The cached default name is left as it was.
   */
  function Delete(db: Db, c: Category): (r: Step<()>)
    requires c in db.categories
    ensures r.result.Ok? <==> |db.categories| != 1 && c.tagCount == 0
    ensures r.result == Err(LastCategory) <==> |db.categories| == 1
    ensures r.result == Err(InUse) <==> |db.categories| != 1 && c.tagCount > 0
    ensures r.result.Err? ==> r.db == db
    ensures r.result.Ok? ==>
              && r.db.defaultNameCache == db.defaultNameCache
              && forall x :: x in r.db.categories <==> x in db.categories && x.id != c.id
  {
    if |db.categories| == 1 then Step(db, Err(LastCategory))
    else if c.tagCount > 0 then Step(db, Err(InUse))
    else Step(db.(categories := RemoveId(db.categories, c.id)), Ok(()))
  }

  /** The rows without those with id `id`, in order. */
  function RemoveId(cats: seq<Category>, id: nat): (r: seq<Category>)
    ensures |r| <= |cats|
    ensures forall x :: x in r <==> x in cats && x.id != id
  {
    if |cats| == 0 then []
    else
      assert forall x :: x in cats <==> x == cats[0] || x in cats[1..];
      if cats[0].id == id then RemoveId(cats[1..], id) else [cats[0]] + RemoveId(cats[1..], id)
  }

  // ---------------------------------------------------------------------------
  // The store invariant is kept
  // ---------------------------------------------------------------------------

  /** A successful rename keeps the store valid: the new name clashes with no other row. */
  lemma RenameKeepsStoreValid(db: Db, cfg: Config, c: Category, name: string)
    requires Valid(db.categories)
    ensures Valid(UpdateName(db, cfg, c, name).db.categories)
  {
  }

  /** A colour change touches no id, name or default flag, so it keeps the store valid and the cache coherent. */
  lemma RecolorKeepsStoreValid(db: Db, cfg: Config, c: Category, color: string)
    requires Valid(db.categories) && CacheCoherent(db)
    ensures Valid(UpdateColor(db, cfg, c, color).db.categories)
    ensures CacheCoherent(UpdateColor(db, cfg, c, color).db)
  {
    var r := UpdateColor(db, cfg, c, color);
    if r.result.Ok? {
      SameKeys(db.categories, r.db.categories);
      DefaultNameIgnoresColor(db.categories, r.db.categories);
    }
  }

  /** Whether two stores agree row by row on everything but colour and tag count. */
  predicate SameKeysRowByRow(cats: seq<Category>, cats': seq<Category>)
  {
    && |cats'| == |cats|
    && forall i :: 0 <= i < |cats| ==>
         cats'[i].id == cats[i].id && cats'[i].name == cats[i].name && cats'[i].isDefault == cats[i].isDefault
  }

  /** Rewriting only colours keeps every row's id, name and default flag, and so the store invariant. */
  lemma SameKeys(cats: seq<Category>, cats': seq<Category>)
    requires Valid(cats)
    requires |cats'| == |cats|
    requires forall i :: 0 <= i < |cats| ==> cats'[i] == cats[i] || cats'[i] == cats[i].(color := cats'[i].color)
    ensures SameKeysRowByRow(cats, cats')
    ensures Valid(cats')
  {
  }

  /**
   * Two stores that differ only in colours pick defaults with the same name:
   * the default flag and the ids, which decide the pick, are the same row by row.
   */
  lemma DefaultNameIgnoresColor(cats: seq<Category>, cats': seq<Category>)
    requires SameKeysRowByRow(cats, cats')
    ensures TryGetDefault(cats').Some? <==> TryGetDefault(cats).Some?
    ensures TryGetDefault(cats').Some? ==> TryGetDefault(cats').value.name == TryGetDefault(cats).value.name
  {
    FirstDefaultSameKeys(cats, cats');
    SmallestIdSameKeys(cats, cats');
  }

  /** The first default-flagged row sits at the same position in both stores. */
  lemma {:induction false} FirstDefaultSameKeys(cats: seq<Category>, cats': seq<Category>)
    requires SameKeysRowByRow(cats, cats')
    ensures FirstDefault(cats').Some? <==> FirstDefault(cats).Some?
    ensures FirstDefault(cats').Some? ==>
              FirstDefault(cats').value.name == FirstDefault(cats).value.name
    decreases |cats|
  {
    if |cats| > 0 {
      assert cats'[0].isDefault == cats[0].isDefault;
      assert SameKeysRowByRow(cats[1..], cats'[1..]) by {
        forall i | 0 <= i < |cats[1..]|
          ensures cats'[1..][i].id == cats[1..][i].id && cats'[1..][i].name == cats[1..][i].name
                  && cats'[1..][i].isDefault == cats[1..][i].isDefault
        {
          assert cats[1..][i] == cats[i + 1] && cats'[1..][i] == cats'[i + 1];
        }
      }
      FirstDefaultSameKeys(cats[1..], cats'[1..]);
    }
  }

  /** The row with the smallest id sits at the same position in both stores. */
  lemma {:induction false} SmallestIdSameKeys(cats: seq<Category>, cats': seq<Category>)
    requires SameKeysRowByRow(cats, cats')
    ensures SmallestId(cats').Some? <==> SmallestId(cats).Some?
    ensures SmallestId(cats').Some? ==>
              && SmallestId(cats').value.id == SmallestId(cats).value.id
              && SmallestId(cats').value.name == SmallestId(cats).value.name
    decreases |cats|
  {
    if |cats| > 0 {
      assert SameKeysRowByRow(cats[1..], cats'[1..]) by {
        forall i | 0 <= i < |cats[1..]|
          ensures cats'[1..][i].id == cats[1..][i].id && cats'[1..][i].name == cats[1..][i].name
                  && cats'[1..][i].isDefault == cats[1..][i].isDefault
        {
          assert cats[1..][i] == cats[i + 1] && cats'[1..][i] == cats'[i + 1];
        }
      }
      SmallestIdSameKeys(cats[1..], cats'[1..]);
    }
  }

  /** Renaming a stored category to its own name in another case is not a clash: its own row is excluded. */
  lemma RenameToOwnNameInOtherCase(db: Db, cfg: Config, c: Category, name: string)
    requires Valid(db.categories) && c in db.categories
    requires |name| > 0 && SameNameIgnoringCase(name, c.name)
    ensures !NameTaken(db.categories, name, c.id)
    ensures UpdateName(db, cfg, c, name).result != Err(NameAlreadyExists)
  {
  }

  /** The row the caller adds for a created category once it is flushed with a fresh id. */
  function Added(cats: seq<Category>, c: Category, id: nat): (r: seq<Category>)
    ensures |r| == |cats| + 1 && r[..|cats|] == cats && r[|cats|] == c.(id := id)
  {
    cats + [c.(id := id)]
  }

  /**
   * A created category, flushed with a fresh id, keeps the store valid: its
   * name clashes with no row, and it is the default only when it is the
   * first row.
   */
  lemma CreatedCategoryKeepsStoreValid(db: Db, cfg: Config, name: string, color: string, id: nat)
    requires Valid(db.categories)
    requires CreateCategory(db, cfg, name, color).result.Ok?
    requires id > 0 && forall x :: x in db.categories ==> x.id != id
    ensures var r := CreateCategory(db, cfg, name, color);
            Valid(Added(r.db.categories, r.result.value, id))
  {
  }

  /** Moving the default keeps the store valid and leaves exactly one default, `c`. */
  lemma SetDefaultKeepsStoreValid(db: Db, c: Category)
    requires Valid(db.categories) && c in db.categories
    ensures c.id > 0
    ensures var cats' := SetDefault(db, c).categories;
            && Valid(cats')
            && HasDefault(cats')
            && forall i :: 0 <= i < |cats'| ==> (cats'[i].isDefault <==> cats'[i] == c.(isDefault := true))
  {
  }

  /** A valid store stays valid with a row in front that agrees with every row in it. */
  lemma ConsKeepsStoreValid(h: Category, rest: seq<Category>)
    requires Valid(rest) && h.id > 0
    requires forall x :: x in rest ==>
               h.id != x.id && !SameNameIgnoringCase(h.name, x.name) && !(h.isDefault && x.isDefault)
    ensures Valid([h] + rest)
  {
  }

  lemma {:induction false} RemoveIdKeepsStoreValid(cats: seq<Category>, id: nat)
    requires Valid(cats)
    ensures Valid(RemoveId(cats, id))
    decreases |cats|
  {
    if |cats| > 0 {
      var tail := cats[1..];
      assert Valid(tail) by {
        forall i | 0 <= i < |tail| ensures tail[i] == cats[i + 1] { }
      }
      RemoveIdKeepsStoreValid(tail, id);
      if cats[0].id != id {
        var rest := RemoveId(tail, id);
        forall x | x in rest
          ensures cats[0].id != x.id
          ensures !SameNameIgnoringCase(cats[0].name, x.name)
          ensures !(cats[0].isDefault && x.isDefault)
        {
          var k :| 0 <= k < |tail| && tail[k] == x;
          assert cats[k + 1] == x;
        }
        ConsKeepsStoreValid(cats[0], rest);
      }
    }
  }

  lemma {:induction false} RemoveIdCount(cats: seq<Category>, k: int)
    requires IdsUnique(cats) && 0 <= k < |cats|
    ensures |RemoveId(cats, cats[k].id)| == |cats| - 1
    decreases |cats|
  {
    var tail := cats[1..];
    assert IdsUnique(tail) by {
      forall i | 0 <= i < |tail| ensures tail[i] == cats[i + 1] { }
    }
    if k == 0 {
      RemoveIdAbsent(tail, cats[0].id);
    } else {
      assert tail[k - 1] == cats[k];
      RemoveIdCount(tail, k - 1);
    }
  }

  lemma {:induction false} RemoveIdAbsent(cats: seq<Category>, id: nat)
    requires forall x :: x in cats ==> x.id != id
    ensures RemoveId(cats, id) == cats
    decreases |cats|
  {
    if |cats| > 0 {
      assert cats[0] in cats;
      RemoveIdAbsent(cats[1..], id);
      assert [cats[0]] + cats[1..] == cats;
    }
  }

  /** A successful delete removes exactly one row, keeps the store valid, and never empties it. */
  lemma DeleteKeepsStoreValid(db: Db, c: Category)
    requires Valid(db.categories) && c in db.categories
    requires Delete(db, c).result.Ok?
    ensures var cats' := Delete(db, c).db.categories;
            && Valid(cats')
            && |cats'| == |db.categories| - 1
            && |cats'| >= 1
            && c !in cats'
  {
    var k :| 0 <= k < |db.categories| && db.categories[k] == c;
    RemoveIdKeepsStoreValid(db.categories, c.id);
    RemoveIdCount(db.categories, k);
  }

  /** A delete that fails, or removes a category other than the flagged default, keeps a coherent cache coherent. */
  lemma DeleteKeepsCacheCoherent(db: Db, c: Category)
    requires Valid(db.categories) && c in db.categories
    requires HasDefault(db.categories) && !c.isDefault
    requires CacheCoherent(db)
    ensures CacheCoherent(Delete(db, c).db)
  {
  }
}

=== FILE: wrappers.dfy ===
/** Failure-carrying result types shared by the modules of this model. */
module Wrappers {

  /** A value that may be absent; stands for PHP `null` and Python `None`. */
  datatype Option<+T> = None | Some(value: T)

  /** The outcome of an operation that either yields a value or raises an error. */
  datatype Result<+T, +E> = Ok(value: T) | Err(error: E)

  /** The outcome of an operation that yields nothing on success. */
  datatype Outcome<+E> = Pass | Fail(error: E)
}
